=== FILE: README.md ===
# QAP site scorer: breakdown panel and selection controller

A Dafny model of the two parts of the Georgia QAP site scorer web app that
turn a scoring-service response into what the user sees:

- **The score breakdown panel** (`ScoringData`, module `ScoringData` in
  `scoring_data.dfy`). This is a pure function from the current, possibly
  absent, score result to a presentation model. It covers the "Scoring..."
  pending view, the capped or uncapped desirable-activity heading, and the
  four-way highlight band of each activity row with its name fallback. It also
  covers the walking-distance lines of the two community-transportation
  contributors and the per-record previous-project lines, including the
  "Transit hub within 1 mile walk" condition.
- **The selection/response controller** (the coordinates effect of `App`,
  module `App` in `app.dfy`). Its state is the record
  `(coordinates, data, markers)`. A geocoder result replaces the coordinates.
  A successful response replaces `data` and rebuilds the markers from scratch.
  A failed request changes nothing. The request is built from the GeoJSON
  `[lng, lat]` position and always carries application year 2024.
  Sequences of events are folded over the state, and lemmas state what is on
  display after any sequence.

Supporting modules:
- `Js` (`js.dfy`) holds the JavaScript value semantics the code relies on:
  JSON `null`, truthiness of strings and numbers, the `null`→0 coercion of
  `>`/`<=`, and `"null"` in string concatenation.
- `Response` (`response.dfy`) holds the response body records.

Text is modelled as a sequence of fragments, each a literal/string or a
number as JSX shows it. The literals are the source's own.

Behaviour of the code that the model keeps:
- The code keeps no request identity, so the last successful response to
  arrive wins (`App.LastSuccessWins`, `App.LateResponseReplacesNewer`).
- The popup concatenates the raw name field, so a `null` name is spelled
  `null` (`App.MarkerPlacement`).
- A latitude or longitude of exactly 0 is falsy and counts as absent
  (`App.HasSite`).
- The previous-project line reads `Last project in J: Y`.

The name cell shows the fallback "none within 1.5 miles" whenever the name is
absent, and shows the name otherwise. These are two implications, not an iff:
an activity literally named "none within 1.5 miles" shows the same cell.
A `null` years-since value compares as 0 under `<=`. So a record with a
positive b-score and no years-since value shows the transit-hub line.

## Model

| member | source | states |
|---|---|---|
| `ScoringData.Present` | web_app/src/ScoringData.js:5-16 | With no data, the view is exactly the pending "Scoring..." view with no other content. With data, it is the breakdown: the title "<total> points", the desirable heading, one row per activity, the transport section and one block per previous project. |
| `ScoringData.DesirableHeader` | web_app/src/ScoringData.js:21-25 | The "Maximum Points: (" form appears exactly when the total exceeds 20. The raw total is always shown, with " / 20)" in the capped form and " points" otherwise. |
| `ScoringData.CapBoundary` | web_app/src/ScoringData.js:21-25 | 20 shows "20 points"; 21 and 25 show the capped "Maximum Points: (N / 20)" form. |
| `ScoringData.BandOf` | web_app/src/ScoringData.js:38-47 | The band partitions activities by distance interval: missing iff no name (whatever the distance); far iff named and over 1 mile; closer iff named and in (0.5, 1]; closest iff named and at most 0.5 (a null distance counts as 0). |
| `ScoringData.BandBoundaries` | web_app/src/ScoringData.js:41-46 | For a named activity, exactly 1 mile is "closer" (not far), exactly 0.5 is "closest" (not closer), 1.5 is "far". |
| `ScoringData.BandMonotone` | web_app/src/ScoringData.js:41-46 | Of two named activities, the farther one never gets a closer band. |
| `ScoringData.Rows` | web_app/src/ScoringData.js:37-57 | One row per activity in input order, carrying its band, category, distance and points. The name cell is the name when the name is truthy, and "none within 1.5 miles" (with band missing) when it is not. |
| `ScoringData.RowsConcat` | web_app/src/ScoringData.js:37 | Rows of a joined table are the joined rows: the table keeps input order. |
| `ScoringData.WalkingLine` | web_app/src/ScoringData.js:63-69 | A contributor's walking-distance line exists iff its name is truthy, and then starts with the name and shows its distance and "miles away (walking)". |
| `ScoringData.TransportViewOf` | web_app/src/ScoringData.js:61-69 | The transit-oriented line appears iff that contributor is named, and the public-access line iff that one is. Each line is that contributor's `WalkingLine` (name, ": ", distance, " miles away (walking)"). The headings read "Community Transportation Options: ", "(A) Transit-Oriented Development: " and "(B) Access to Public Transportation: ", each followed by its points and " points". |
| `ScoringData.ContributorsIndependent` | web_app/src/ScoringData.js:63-69 | Each contributor's line depends on that contributor alone. |
| `ScoringData.ProjectBlockOf` | web_app/src/ScoringData.js:70-84 | The line is exactly "Last project in <jurisdiction>: <year>" iff the jurisdiction name is truthy, and "Unincorporated jurisdiction" otherwise. The line "Last award within a mile: <years-since> years ago" appears iff b > 0, and "Last award within a mile: within last 2 years" iff b = 0. "Transit hub within 1 mile walk" appears iff b > 0 and years-since <= 3. The three headings read "Previous Projects: ", "(A) Awards in Jurisdiction: " and "(B) Awards within a Mile: ", each followed by its points and " points". |
| `ScoringData.AwardLinesExclusive` | web_app/src/ScoringData.js:76-82 | The two award lines are never shown together, and b < 0 shows neither. Transit hub only accompanies the "years ago" line, so it never appears when b = 0. |
| `ScoringData.ProjectBlocks` | web_app/src/ScoringData.js:70-84 | One block per previous-project record, in input order. |
| `ScoringData.Scenarios` | web_app/src/ScoringData.js:37-82 | A nameless activity is a "missing" row reading "none within 1.5 miles". b = 0 shows "within last 2 years" and no transit hub. b = 5 with 2 years since shows the "2 years ago" line and the transit hub. |
| `App.BuildRequest` | web_app/src/App.js:61-67 | The request sends latitude = coordinates[1] and longitude = coordinates[0], each absent when the array is too short to hold it, with application year 2024. |
| `App.RequestRoundTrip` | web_app/src/App.js:63-64 | Reading the request's parameters back in GeoJSON order gives the selected position. |
| `App.IssuedRequest` | web_app/src/App.js:57-68 | No request is issued while the coordinates are null. Otherwise the request is the one built from them. |
| `App.Select` | web_app/src/App.js:46-49 | A geocoder result replaces the coordinates wholesale and leaves data and markers unchanged, and the new coordinates issue a request for that position. |
| `App.HasSite` | web_app/src/App.js:80 | Both site coordinates are present and non-zero. |
| `App.MarkerPlacement` | web_app/src/App.js:80-86 | A marker is placed at `[site_longitude, site_latitude]`. Its popup is the category, then ": ", then the name as `+` spells it, which is "null" for a `null` name. |
| `App.MarkersFor` | web_app/src/App.js:79-92 | Every marker comes from an activity with both coordinates truthy, every such activity has its marker, and there are never more markers than activities. |
| `App.MarkersForConcat` | web_app/src/App.js:79-92 | The markers of a joined table are the joined markers, so marker order follows table order. |
| `App.MarkersForSingle` | web_app/src/App.js:80-90 | One activity yields its marker if it has a site and nothing otherwise. With `MarkersForConcat` this fixes the marker list of every table. |
| `App.MarkersForAppend` | web_app/src/App.js:79-91 | Pushing one more activity appends its marker exactly when both its coordinates are truthy, and otherwise leaves the markers as they were. |
| `App.RebuildMarkers` | web_app/src/App.js:75-92 | Clearing the shown markers and pushing one per sited activity yields exactly `MarkersFor(table)`; the previous list is discarded unread. |
| `App.Receive` | web_app/src/App.js:60-95 | On success, data becomes the response body, and every marker comes from the new body (none survive from an earlier result); the new markers are exactly `MarkersFor` of the new activities (the markers stay consistent with the data), so they follow table order with at most one per activity. On failure the state is unchanged. |
| `App.AppView` | web_app/src/App.js:107 | The panel is rendered iff coordinates exist. It is the pending view iff no data has arrived. |
| `App.SelectKeepsView` | web_app/src/App.js:48 | Selecting a new site keeps the previous result on display until the new response arrives. |
| `App.StepConsistent` | web_app/src/App.js:70-92 | Every transition keeps the markers equal to those of the displayed result. |
| `App.RunConsistent` | web_app/src/App.js:70-92 | The same holds after any sequence of events. |
| `App.RunSnoc` | web_app/src/App.js:57-100 | Running one more event is one more transition after the run. |
| `App.LastSuccessWins` | web_app/src/App.js:70 | After any events, data is the body of the last successful response to arrive. Failures never change it, and it is the initial data if no success arrived. |
| `App.LastSelectionWins` | web_app/src/App.js:46-49 | After any events, the coordinates are those of the last geocoder result. |
| `App.Displayed` | web_app/src/App.js:57-107 | From the start: nothing is shown before a selection; "Scoring..." is shown until a success arrives; after that, the panel of the last successful body. The markers are those of the last successful body, or none. |
| `App.LateResponseReplacesNewer` | web_app/src/App.js:57-95 | Select A, select B, B's response, then A's response: A's result is displayed while B is the selected site. |

## Left out

- Map construction, style, tiles and the `move` handler with its `toFixed` formatting of centre and zoom: display-only map state (web_app/src/App.js:24-37).
- Geocoder widget creation and DOM attachment: a foreign library and the DOM. The model keeps only the coordinates its result event delivers (web_app/src/App.js:39-53).
- The HTTP transport, endpoint URL and credentials. The awaited call is an abstract `Success(body) | Failure` outcome. Transport and service errors are not told apart because the single `catch` handles both alike.
- `console.log` / `console.error`: logging has no effect on state.
- React hooks, JSX markup and CSS classes. Only the derived content is kept, and a band stands for its `highlight-*` class.
- Number-to-string formatting: numbers stay as values in the text fragments. The capped heading for 25, "Maximum Points: (25 / 20)", is therefore stated at fragment level (`ScoringData.CapBoundary`).
- The static explainer paragraph and hyperlink (web_app/src/ScoringData.js:17-18).
- The positional `[[points], [tod], [access]]` wire shape of the community-transportation field: it is modelled as a named record. An array too short to index, which would make the render throw, is not modelled.
- A response body that is malformed (missing fields), which would throw after `setData` in the code: the body is modelled as a well-formed record.
- Points fields (`points`, the total, A and B points) are numbers, as the response defines them; a `null` points value is not modelled. Such a value would, for instance, make `previous_project_b_points === 0` false and show neither award line.
- Keys missing from the JSON altogether (JavaScript `undefined`, which compares differently from `null`) and NaN: absence is modelled as JSON `null` only.
- Out-of-order delivery guards: the code has none, so the model applies responses in order of arrival and does not promise a discard of stale responses.

=== FILE: app.dfy ===
/**
 The selection/response controller of web_app/src/App.js: the state it keeps
 (the selected coordinates, the last response body, the markers on the map),
 the request it builds from a selection, and how a geocoder result, a
 successful response and a failed request change that state. The HTTP call
 and the map library are abstracted: a response arrives as an `Outcome`, and
 the map's markers are the sequence the state holds.
 */
module App {
  import opened Js
  import opened Response
  import ScoringData

  /** A GeoJSON position as the geocoder reports it: longitude first, then latitude. */
  type Position = seq<real>

  /** The application year every request carries. */
  const ApplicationYear := 2024

  /** The query parameters sent to the scoring service (the API credential is left out). */
  datatype ScoreRequest = ScoreRequest(siteLatitude: Nullable<real>, siteLongitude: Nullable<real>, applicationYear: int)

  /** `coordinates[i]`: an index past the end of the array reads as absent. */
  function Component(pos: Position, i: nat): Nullable<real> {
    if i < |pos| then Value(pos[i]) else Null
  }

  /** The request for a selected position: GeoJSON order is swapped into named parameters. */
  function BuildRequest(pos: Position): (req: ScoreRequest)
    ensures req.siteLatitude == (if |pos| > 1 then Value(pos[1]) else Null)
    ensures req.siteLongitude == (if |pos| > 0 then Value(pos[0]) else Null)
    ensures req.applicationYear == ApplicationYear
  {
    ScoreRequest(Component(pos, 1), Component(pos, 0), ApplicationYear)
  }

  /** The site a request asks about, back in GeoJSON order. */
  function RequestedPosition(req: ScoreRequest): Option<Position> {
    if req.siteLatitude.Value? && req.siteLongitude.Value? then Some([req.siteLongitude.v, req.siteLatitude.v])
    else None
  }

  /** The request names exactly the selected two-component position. */
  lemma RequestRoundTrip(pos: Position)
    requires |pos| == 2
    ensures RequestedPosition(BuildRequest(pos)) == Some(pos)
  {
    assert [pos[0], pos[1]] == pos;
  }

  /*** Markers ***/

  /** A map marker: where it is placed, in `[longitude, latitude]` order, and its popup text. */
  datatype Marker = Marker(lngLat: seq<real>, popup: string)

  /** Both site coordinates are truthy: present and non-zero. */
  predicate HasSite(a: Activity) {
    NumberTruthy(a.siteLatitude) && NumberTruthy(a.siteLongitude)
  }

  function MarkerOf(a: Activity): Marker
    requires HasSite(a)
  {
    Marker([a.siteLongitude.v, a.siteLatitude.v], a.category + ": " + ConcatForm(a.name))
  }

  /** A marker sits at `[longitude, latitude]`; its popup reads category, ": ", name. */
  lemma MarkerPlacement(a: Activity)
    requires HasSite(a)
    ensures |MarkerOf(a).lngLat| == 2
    ensures MarkerOf(a).lngLat[0] == a.siteLongitude.v && MarkerOf(a).lngLat[1] == a.siteLatitude.v
    ensures |MarkerOf(a).popup| >= |a.category| + 2
    ensures MarkerOf(a).popup[..|a.category|] == a.category
    ensures MarkerOf(a).popup[|a.category|..|a.category| + 2] == ": "
    ensures MarkerOf(a).popup[|a.category| + 2..] == ConcatForm(a.name)
    ensures a.name == Null ==> MarkerOf(a).popup == a.category + ": null"
  {
  }

  /** The markers a response puts on the map: one per activity with a site, in table order. */
  function MarkersFor(table: seq<Activity>): (ms: seq<Marker>)
    ensures |ms| <= |table|
    ensures forall m :: m in ms ==> exists a :: a in table && HasSite(a) && m == MarkerOf(a)
    ensures forall a :: a in table && HasSite(a) ==> MarkerOf(a) in ms
    ensures (forall a :: a in table ==> HasSite(a)) ==> |ms| == |table|
  {
    if table == [] then []
    else
      var rest := MarkersFor(table[1..]);
      assert forall a :: a in table[1..] ==> a in table;
      if HasSite(table[0]) then [MarkerOf(table[0])] + rest else rest
  }

  /** Filtering distributes over concatenation, so marker order follows table order. */
  lemma {:induction false} MarkersForConcat(t1: seq<Activity>, t2: seq<Activity>)
    ensures MarkersFor(t1 + t2) == MarkersFor(t1) + MarkersFor(t2)
    decreases |t1|
  {
    if t1 == [] {
      assert t1 + t2 == t2;
    } else {
      assert (t1 + t2)[0] == t1[0];
      assert (t1 + t2)[1..] == t1[1..] + t2;
      MarkersForConcat(t1[1..], t2);
    }
  }

  /** A single activity yields its marker when it has a site, and nothing otherwise;
      with MarkersForConcat this fixes MarkersFor on every table. */
  lemma MarkersForSingle(a: Activity)
    ensures HasSite(a) ==> MarkersFor([a]) == [MarkerOf(a)]
    ensures !HasSite(a) ==> MarkersFor([a]) == []
  {
    assert [a][1..] == [];
  }

  /** Pushing one more activity adds its marker when it has a site, and nothing otherwise. */
  lemma MarkersForAppend(table: seq<Activity>, a: Activity)
    ensures HasSite(a) ==> MarkersFor(table + [a]) == MarkersFor(table) + [MarkerOf(a)]
    ensures !HasSite(a) ==> MarkersFor(table + [a]) == MarkersFor(table)
  {
    MarkersForConcat(table, [a]);
    MarkersForSingle(a);
  }

  /** The marker refresh after a response: the markers on the map are removed and the
      list starts empty, so nothing of the previous list is read; then each activity
      with a site gets a new marker, in table order. */
  method RebuildMarkers(table: seq<Activity>) returns (markers: seq<Marker>)
    ensures markers == MarkersFor(table)
  {
    markers := [];
    var i := 0;
    while i < |table|
      invariant 0 <= i <= |table|
      invariant markers == MarkersFor(table[..i])
    {
      var a := table[i];
      assert table[..i + 1] == table[..i] + [a];
      MarkersForAppend(table[..i], a);
      if HasSite(a) {
        markers := markers + [MarkerOf(a)];
      }
      i := i + 1;
    }
    assert table[..|table|] == table;
  }

  /*** Controller state ***/

  datatype AppState = AppState(coordinates: Nullable<Position>, data: Nullable<ScoreResult>, markers: seq<Marker>)

  /** Nothing selected, nothing scored, no markers. */
  const Initial := AppState(Null, Null, [])

  /** The awaited request either resolves with a response body or throws. */
  datatype Outcome = Success(body: ScoreResult) | Failure

  /** The request the coordinates effect sends, if any: none until something is selected. */
  function IssuedRequest(s: AppState): (r: Option<ScoreRequest>)
    ensures r.None? <==> s.coordinates.Null?
    ensures r.Some? ==> r.value.applicationYear == ApplicationYear
    ensures r.Some? ==> r.value == BuildRequest(s.coordinates.v)
  {
    match s.coordinates
    case Null => None
    case Value(pos) => Some(BuildRequest(pos))
  }

  /** A geocoder result replaces the coordinates and leaves the shown result alone. */
  function Select(s: AppState, pos: Position): (t: AppState)
    ensures t.coordinates == Value(pos)
    ensures t.data == s.data && t.markers == s.markers
    ensures IssuedRequest(t) == Some(BuildRequest(pos))
  {
    s.(coordinates := Value(pos))
  }

  /** A settled request: a success replaces the data and rebuilds the markers from the
      new body alone; a failure changes nothing. */
  function Receive(s: AppState, outcome: Outcome): (t: AppState)
    ensures outcome.Failure? ==> t == s
    ensures outcome.Success? ==> t.data == Value(outcome.body) && t.coordinates == s.coordinates
    ensures outcome.Success? ==> forall m :: m in t.markers ==>
      exists a :: a in outcome.body.activities && HasSite(a) && m == MarkerOf(a)
    ensures outcome.Success? ==> forall a :: a in outcome.body.activities && HasSite(a) ==> MarkerOf(a) in t.markers
    ensures outcome.Success? ==> |t.markers| <= |outcome.body.activities|
    ensures outcome.Success? ==> Consistent(t)
  {
    match outcome
    case Failure => s
    case Success(body) => s.(data := Value(body), markers := MarkersFor(body.activities))
  }

  /** The markers on the map are those of the result on display. */
  predicate Consistent(s: AppState) {
    match s.data
    case Null => s.markers == []
    case Value(body) => s.markers == MarkersFor(body.activities)
  }

  /** What the page shows below the map: nothing until a site is selected, then the panel. */
  function AppView(s: AppState): (v: Option<ScoringData.View>)
    ensures v.None? <==> s.coordinates.Null?
    ensures v.Some? ==> (v.value.Pending? <==> s.data.Null?)
  {
    if s.coordinates.Value? then Some(ScoringData.Present(s.data)) else None
  }

  /** Picking a new site keeps the previous result on display until a response arrives. */
  lemma SelectKeepsView(s: AppState, pos: Position)
    requires s.coordinates.Value?
    ensures AppView(Select(s, pos)) == AppView(s)
  {
  }

  /*** Event sequences ***/

  datatype Event = Selected(pos: Position) | Responded(outcome: Outcome)

  function Step(s: AppState, e: Event): AppState {
    match e
    case Selected(pos) => Select(s, pos)
    case Responded(outcome) => Receive(s, outcome)
  }

  /** Events applied in order of arrival. */
  function Run(s: AppState, events: seq<Event>): AppState
    decreases |events|
  {
    if events == [] then s else Run(Step(s, events[0]), events[1..])
  }

  /** The body of the last successful response among the events, if any. */
  function LastSuccess(events: seq<Event>): Option<ScoreResult>
    decreases |events|
  {
    if events == [] then None
    else
      var e := events[|events| - 1];
      if e.Responded? && e.outcome.Success? then Some(e.outcome.body)
      else LastSuccess(events[..|events| - 1])
  }

  /** The last position selected among the events, if any. */
  function LastSelection(events: seq<Event>): Option<Position>
    decreases |events|
  {
    if events == [] then None
    else
      var e := events[|events| - 1];
      if e.Selected? then Some(e.pos) else LastSelection(events[..|events| - 1])
  }

  lemma {:induction false} RunSnoc(s: AppState, events: seq<Event>, e: Event)
    ensures Run(s, events + [e]) == Step(Run(s, events), e)
    decreases |events|
  {
    if events == [] {
      assert events + [e] == [e];
      assert [e][1..] == [];
    } else {
      assert (events + [e])[0] == events[0];
      assert (events + [e])[1..] == events[1..] + [e];
      RunSnoc(Step(s, events[0]), events[1..], e);
    }
  }

  /** Every transition keeps the markers in step with the displayed result. */
  lemma StepConsistent(s: AppState, e: Event)
    requires Consistent(s)
    ensures Consistent(Step(s, e))
  {
  }

  lemma {:induction false} RunConsistent(s: AppState, events: seq<Event>)
    requires Consistent(s)
    ensures Consistent(Run(s, events))
    decreases |events|
  {
    if events != [] {
      StepConsistent(s, events[0]);
      RunConsistent(Step(s, events[0]), events[1..]);
    }
  }

  /** The last successful response to arrive decides the data; failures leave it alone. */
  lemma {:induction false} LastSuccessWins(s: AppState, events: seq<Event>)
    ensures LastSuccess(events).Some? ==> Run(s, events).data == Value(LastSuccess(events).value)
    ensures LastSuccess(events).None? ==> Run(s, events).data == s.data
    decreases |events|
  {
    if events != [] {
      var init, e := events[..|events| - 1], events[|events| - 1];
      assert events == init + [e];
      RunSnoc(s, init, e);
      LastSuccessWins(s, init);
    }
  }

  /** The coordinates are those of the last geocoder result. */
  lemma {:induction false} LastSelectionWins(s: AppState, events: seq<Event>)
    ensures LastSelection(events).Some? ==> Run(s, events).coordinates == Value(LastSelection(events).value)
    ensures LastSelection(events).None? ==> Run(s, events).coordinates == s.coordinates
    decreases |events|
  {
    if events != [] {
      var init, e := events[..|events| - 1], events[|events| - 1];
      assert events == init + [e];
      RunSnoc(s, init, e);
      LastSelectionWins(s, init);
    }
  }

  /** From the start: what is displayed, and which markers are on the map, after any events. */
  lemma Displayed(events: seq<Event>)
    ensures LastSelection(events).None? ==> AppView(Run(Initial, events)).None?
    ensures LastSelection(events).Some? && LastSuccess(events).None? ==>
      AppView(Run(Initial, events)) == Some(ScoringData.Pending("Scoring..."))
    ensures LastSelection(events).Some? && LastSuccess(events).Some? ==>
      AppView(Run(Initial, events)) == Some(ScoringData.Present(Value(LastSuccess(events).value)))
    ensures LastSuccess(events).None? ==> Run(Initial, events).markers == []
    ensures LastSuccess(events).Some? ==> Run(Initial, events).markers == MarkersFor(LastSuccess(events).value.activities)
  {
    LastSuccessWins(Initial, events);
    LastSelectionWins(Initial, events);
    RunConsistent(Initial, events);
  }

  /** No request identity is kept: a response for an earlier selection that arrives after
      the response for a later one replaces it on display. */
  lemma LateResponseReplacesNewer(a: Position, b: Position, forA: ScoreResult, forB: ScoreResult)
    ensures Run(Initial, [Selected(a), Selected(b), Responded(Success(forB)), Responded(Success(forA))]).data
      == Value(forA)
    ensures Run(Initial, [Selected(a), Selected(b), Responded(Success(forB)), Responded(Success(forA))]).coordinates
      == Value(b)
  {
    var events := [Selected(a), Selected(b), Responded(Success(forB)), Responded(Success(forA))];
    LastSuccessWins(Initial, events);
    LastSelectionWins(Initial, events);
    assert events[..3] == [Selected(a), Selected(b), Responded(Success(forB))];
    assert events[..3][..2] == [Selected(a), Selected(b)];
    assert LastSelection(events) == LastSelection(events[..3]) == LastSelection(events[..3][..2]) == Some(b);
  }
}

=== FILE: js.dfy ===
/**
 The small part of JavaScript value semantics that the web app's presentation
 and marker logic depend on: JSON `null`, truthiness, the coercion the
 relational operators apply, and string concatenation of a possibly-null value.
 */
module Js {

  /** A JSON field the scoring service may send as `null`. */
  datatype Nullable<+T> = Null | Value(v: T)

  /** An optional value: a paragraph that may be left out, a request that may not be sent. */
  datatype Option<+T> = None | Some(value: T)

  /** Truthiness of a string field: `null` and the empty string are falsy. */
  predicate StringTruthy(s: Nullable<string>) {
    s.Value? && s.v != ""
  }

  /** Truthiness of a number field: `null` and `0` are falsy. */
  predicate NumberTruthy(x: Nullable<real>) {
    x.Value? && x.v != 0.0
  }

  /** The number a relational operator (`<`, `<=`, `>`) compares: `null` becomes 0. */
  function ToNumber(x: Nullable<real>): real {
    match x
    case Null => 0.0
    case Value(n) => n
  }

  /** `x > k` in JavaScript, for a possibly-null number `x`. */
  predicate Greater(x: Nullable<real>, k: real) {
    ToNumber(x) > k
  }

  /** `x <= k` in JavaScript, for a possibly-null number `x`. */
  predicate AtMost(x: Nullable<real>, k: real) {
    ToNumber(x) <= k
  }

  /** The string `+` concatenates for a possibly-null string: `null` is spelled "null". */
  function ConcatForm(s: Nullable<string>): string {
    match s
    case Null => "null"
    case Value(t) => t
  }
}

=== FILE: response.dfy ===
/**
 The body of a successful response from the scoring service, with the
 community-transportation part given named fields instead of the positional
 `[[points], [transit-oriented], [public-access]]` nesting of the wire format.
 */
module Response {
  import opened Js

  /** One row of `scored_activity_table`: a desirable-activity category and the
      nearest qualifying site the service found for it, if any. */
  datatype Activity = Activity(
    category: string,              // qapDesirableActivity
    name: Nullable<string>,        // null: nothing qualifying within the search radius
    milesAway: Nullable<real>,
    points: real,
    siteLatitude: Nullable<real>,
    siteLongitude: Nullable<real>)

  /** A named contributor to a community-transportation sub-score. */
  datatype Contributor = Contributor(name: Nullable<string>, milesAway: Nullable<real>)

  /** The points record at position 0 of `scored_community_transportation`. */
  datatype TransportPoints = TransportPoints(total: real, aPoints: real, bPoints: real)

  datatype CommunityTransportation = CommunityTransportation(
    points: TransportPoints,
    transitOriented: Contributor,  // position 1: transit-oriented development
    publicAccess: Contributor)     // position 2: access to public transportation

  /** One element of `scored_previous_projects`. */
  datatype PreviousProject = PreviousProject(
    jurisdictionName: Nullable<string>,     // null: unincorporated jurisdiction
    mostRecentYear: Nullable<real>,
    totalPoints: real,
    aPoints: real,
    bPoints: real,
    yearsSinceNearbyAward: Nullable<real>)  // b_no_awards_1mi_since

  datatype ScoreResult = ScoreResult(
    activities: seq<Activity>,
    desirableActivityTotalPoints: real,
    communityTransportation: CommunityTransportation,
    previousProjects: seq<PreviousProject>,
    totalPoints: real)
}

=== FILE: scoring_data.dfy ===
/**
 The score breakdown panel (web_app/src/ScoringData.js) as a pure function from
 the current, possibly absent, score result to a presentation model: which
 headings, table rows and paragraphs are shown, with what text and which
 highlight band. JSX markup and CSS are left out; what remains is the content.
 */
module ScoringData {
  import opened Js
  import opened Response

  /** A piece of rendered text: a literal or string field, or a number as JSX shows it. */
  datatype Fragment = Str(s: string) | Num(n: Nullable<real>)

  /** A heading or paragraph, as the sequence of fragments it is made of. */
  type Text = seq<Fragment>

  function Number(x: real): Fragment {
    Num(Value(x))
  }

  const PendingTitle := "Scoring..."

  /** Desirable-activity points above this are shown as "maximum points reached". */
  const DesirableCap: real := 20.0
  const MaximumLabel := " Maximum Points: ("
  const CapSuffix := " / 20)"
  const PointsSuffix := " points"

  const NoNameFallback := "none within 1.5 miles"
  const FarBeyond: real := 1.0
  const CloserBeyond: real := 0.5

  const WalkingSuffix := " miles away (walking)"
  const TransportLabel := "Community Transportation Options: "
  const TodLabel := "(A) Transit-Oriented Development: "
  const AccessLabel := "(B) Access to Public Transportation: "

  const PreviousProjectsLabel := "Previous Projects: "
  const JurisdictionAwardsLabel := "(A) Awards in Jurisdiction: "
  const MileAwardsLabel := "(B) Awards within a Mile: "

  const LastProjectLabel := " Last project in "
  const UnincorporatedLine := "Unincorporated jurisdiction"
  const LastAwardLabel := "Last award within a mile: "
  const YearsAgoSuffix := " years ago"
  const RecentAwardLine := "Last award within a mile: within last 2 years"
  const TransitHubLine := "Transit hub within 1 mile walk"
  const TransitHubMaxYears: real := 3.0

  /** The highlight class of an activity row. */
  datatype Band = Missing | Far | Closer | Closest

  datatype Row = Row(band: Band, category: string, nameCell: string, miles: Nullable<real>, points: real)

  datatype TransportView = TransportView(
    heading: Text,
    todHeading: Text,
    todLine: Option<Text>,
    accessHeading: Text,
    accessLine: Option<Text>)

  datatype ProjectBlock = ProjectBlock(
    heading: Text,
    awardsHeading: Text,
    jurisdictionLine: Text,
    mileHeading: Text,
    yearsAgoLine: Option<Text>,
    recentAwardLine: Option<Text>,
    transitHubLine: Option<Text>)

  datatype View =
    | Pending(message: string)
    | Breakdown(
        title: Text,
        desirableHeader: Text,
        rows: seq<Row>,
        transport: TransportView,
        projects: seq<ProjectBlock>)

  /** A heading of the form "<heading><points> points". */
  function PointsHeading(heading: string, points: real): Text {
    [Str(heading), Number(points), Str(PointsSuffix)]
  }

  /*** Desirable activities ***/

  predicate ShowsMaximum(t: Text) {
    Str(MaximumLabel) in t
  }

  /** The points part of the "Desirable Activities" heading. */
  function DesirableHeader(total: real): (t: Text)
    ensures ShowsMaximum(t) <==> total > DesirableCap
    ensures Number(total) in t
    ensures ShowsMaximum(t) ==> Str(CapSuffix) in t
    ensures !ShowsMaximum(t) ==> Str(PointsSuffix) in t
  {
    if total > DesirableCap then [Str(MaximumLabel), Number(total), Str(CapSuffix)]
    else [Number(total), Str(PointsSuffix)]
  }

  /** 20 points is shown as earned points, 21 as the capped form. */
  lemma CapBoundary()
    ensures DesirableHeader(20.0) == [Number(20.0), Str(" points")]
    ensures DesirableHeader(21.0) == [Str(" Maximum Points: ("), Number(21.0), Str(" / 20)")]
    ensures DesirableHeader(25.0) == [Str(" Maximum Points: ("), Number(25.0), Str(" / 20)")]
  {
  }

  /** First match wins: no name, then more than a mile, then more than half a mile. */
  function BandOf(a: Activity): (b: Band)
    ensures b == Missing <==> !StringTruthy(a.name)
    ensures b == Far <==> StringTruthy(a.name) && FarBeyond < ToNumber(a.milesAway)
    ensures b == Closer <==> StringTruthy(a.name) && CloserBeyond < ToNumber(a.milesAway) <= FarBeyond
    ensures b == Closest <==> StringTruthy(a.name) && ToNumber(a.milesAway) <= CloserBeyond
  {
    if !StringTruthy(a.name) then Missing
    else if Greater(a.milesAway, FarBeyond) then Far
    else if Greater(a.milesAway, CloserBeyond) then Closer
    else Closest
  }

  /** A distance of exactly one mile is "closer", exactly half a mile "closest". */
  lemma BandBoundaries(a: Activity)
    requires StringTruthy(a.name)
    ensures a.milesAway == Value(1.0) ==> BandOf(a) == Closer
    ensures a.milesAway == Value(0.5) ==> BandOf(a) == Closest
    ensures a.milesAway == Value(1.5) ==> BandOf(a) == Far
  {
  }

  function Closeness(b: Band): nat {
    match b
    case Missing => 0
    case Far => 1
    case Closer => 2
    case Closest => 3
  }

  /** Of two named activities, the farther one never gets a closer band. */
  lemma BandMonotone(near: Activity, far: Activity)
    requires StringTruthy(near.name) && StringTruthy(far.name)
    requires ToNumber(near.milesAway) <= ToNumber(far.milesAway)
    ensures Closeness(BandOf(far)) <= Closeness(BandOf(near))
  {
  }

  function RowOf(a: Activity): Row {
    Row(BandOf(a), a.category, if StringTruthy(a.name) then a.name.v else NoNameFallback, a.milesAway, a.points)
  }

  /** The activity table: one row per activity, in input order. */
  function Rows(table: seq<Activity>): (rows: seq<Row>)
    ensures |rows| == |table|
    ensures forall i :: 0 <= i < |table| ==>
      && rows[i].band == BandOf(table[i])
      && rows[i].category == table[i].category
      && rows[i].miles == table[i].milesAway
      && rows[i].points == table[i].points
    ensures forall i :: 0 <= i < |table| ==>
      (StringTruthy(table[i].name) ==> rows[i].nameCell == table[i].name.v)
    ensures forall i :: 0 <= i < |table| ==>
      (!StringTruthy(table[i].name) ==> rows[i].nameCell == NoNameFallback && rows[i].band == Missing)
  {
    seq(|table|, i requires 0 <= i < |table| => RowOf(table[i]))
  }

  /** Rows follow the table: the rows of a joined table are the joined rows. */
  lemma RowsConcat(t1: seq<Activity>, t2: seq<Activity>)
    ensures Rows(t1 + t2) == Rows(t1) + Rows(t2)
  {
  }

  /*** Community transportation ***/

  /** The walking-distance paragraph of one contributor, shown only when it has a name. */
  function WalkingLine(c: Contributor): (line: Option<Text>)
    ensures line.Some? <==> StringTruthy(c.name)
    ensures line.Some? ==> |line.value| > 0 && line.value[0] == Str(c.name.v)
    ensures line.Some? ==> Num(c.milesAway) in line.value && Str(WalkingSuffix) in line.value
  {
    if StringTruthy(c.name) then Some([Str(c.name.v), Str(": "), Num(c.milesAway), Str(WalkingSuffix)])
    else None
  }

  function TransportViewOf(ct: CommunityTransportation): (v: TransportView)
    ensures v.todLine.Some? <==> StringTruthy(ct.transitOriented.name)
    ensures v.accessLine.Some? <==> StringTruthy(ct.publicAccess.name)
    ensures v.todLine == WalkingLine(ct.transitOriented) && v.accessLine == WalkingLine(ct.publicAccess)
    ensures v.heading == PointsHeading(TransportLabel, ct.points.total)
    ensures v.todHeading == PointsHeading(TodLabel, ct.points.aPoints)
    ensures v.accessHeading == PointsHeading(AccessLabel, ct.points.bPoints)
  {
    TransportView(
      PointsHeading(TransportLabel, ct.points.total),
      PointsHeading(TodLabel, ct.points.aPoints),
      WalkingLine(ct.transitOriented),
      PointsHeading(AccessLabel, ct.points.bPoints),
      WalkingLine(ct.publicAccess))
  }

  /** Each contributor's line depends on that contributor alone. */
  lemma ContributorsIndependent(x: CommunityTransportation, y: CommunityTransportation)
    ensures x.transitOriented == y.transitOriented ==> TransportViewOf(x).todLine == TransportViewOf(y).todLine
    ensures x.publicAccess == y.publicAccess ==> TransportViewOf(x).accessLine == TransportViewOf(y).accessLine
  {
  }

  /*** Previous projects ***/

  predicate NamesJurisdiction(t: Text) {
    |t| > 0 && t[0] == Str(LastProjectLabel)
  }

  function ProjectBlockOf(p: PreviousProject): (b: ProjectBlock)
    ensures NamesJurisdiction(b.jurisdictionLine) <==> StringTruthy(p.jurisdictionName)
    ensures StringTruthy(p.jurisdictionName) ==>
      b.jurisdictionLine == [Str(LastProjectLabel), Str(p.jurisdictionName.v), Str(": "), Num(p.mostRecentYear), Str(" ")]
    ensures !StringTruthy(p.jurisdictionName) ==> b.jurisdictionLine == [Str(UnincorporatedLine)]
    ensures b.yearsAgoLine.Some? <==> p.bPoints > 0.0
    ensures b.yearsAgoLine.Some? ==>
      b.yearsAgoLine.value == [Str(LastAwardLabel), Num(p.yearsSinceNearbyAward), Str(YearsAgoSuffix)]
    ensures b.recentAwardLine.Some? <==> p.bPoints == 0.0
    ensures b.recentAwardLine.Some? ==> b.recentAwardLine.value == [Str(RecentAwardLine)]
    ensures b.transitHubLine.Some? <==> p.bPoints > 0.0 && AtMost(p.yearsSinceNearbyAward, TransitHubMaxYears)
    ensures b.transitHubLine.Some? ==> b.transitHubLine.value == [Str(TransitHubLine)]
    ensures b.heading == PointsHeading(PreviousProjectsLabel, p.totalPoints)
    ensures b.awardsHeading == PointsHeading(JurisdictionAwardsLabel, p.aPoints)
    ensures b.mileHeading == PointsHeading(MileAwardsLabel, p.bPoints)
  {
    ProjectBlock(
      PointsHeading(PreviousProjectsLabel, p.totalPoints),
      PointsHeading(JurisdictionAwardsLabel, p.aPoints),
      if StringTruthy(p.jurisdictionName)
      then [Str(LastProjectLabel), Str(p.jurisdictionName.v), Str(": "), Num(p.mostRecentYear), Str(" ")]
      else [Str(UnincorporatedLine)],
      PointsHeading(MileAwardsLabel, p.bPoints),
      if p.bPoints > 0.0 then Some([Str(LastAwardLabel), Num(p.yearsSinceNearbyAward), Str(YearsAgoSuffix)]) else None,
      if p.bPoints == 0.0 then Some([Str(RecentAwardLine)]) else None,
      if p.bPoints > 0.0 && AtMost(p.yearsSinceNearbyAward, TransitHubMaxYears) then Some([Str(TransitHubLine)]) else None)
  }

  /** The two "last award" lines exclude each other, a negative b-score shows neither,
      and the transit-hub line only ever accompanies the "years ago" line. */
  lemma AwardLinesExclusive(p: PreviousProject)
    ensures !(ProjectBlockOf(p).yearsAgoLine.Some? && ProjectBlockOf(p).recentAwardLine.Some?)
    ensures p.bPoints < 0.0 ==> ProjectBlockOf(p).yearsAgoLine.None? && ProjectBlockOf(p).recentAwardLine.None?
    ensures ProjectBlockOf(p).transitHubLine.Some? ==> ProjectBlockOf(p).yearsAgoLine.Some?
    ensures p.bPoints == 0.0 ==> ProjectBlockOf(p).transitHubLine.None?
  {
  }

  /** One block per previous-project record, in input order. */
  function ProjectBlocks(ps: seq<PreviousProject>): (bs: seq<ProjectBlock>)
    ensures |bs| == |ps|
    ensures forall i :: 0 <= i < |ps| ==> bs[i] == ProjectBlockOf(ps[i])
  {
    seq(|ps|, i requires 0 <= i < |ps| => ProjectBlockOf(ps[i]))
  }

  /*** The whole panel ***/

  /** The panel for the current result: the pending view when there is none. */
  function Present(data: Nullable<ScoreResult>): (v: View)
    ensures v.Pending? <==> data.Null?
    ensures data.Null? ==> v == Pending(PendingTitle)
    ensures data.Value? ==>
      && v.title == [Number(data.v.totalPoints), Str(PointsSuffix)]
      && v.desirableHeader == DesirableHeader(data.v.desirableActivityTotalPoints)
      && v.rows == Rows(data.v.activities)
      && v.transport == TransportViewOf(data.v.communityTransportation)
      && v.projects == ProjectBlocks(data.v.previousProjects)
  {
    match data
    case Null => Pending(PendingTitle)
    case Value(r) =>
      Breakdown(
        [Number(r.totalPoints), Str(PointsSuffix)],
        DesirableHeader(r.desirableActivityTotalPoints),
        Rows(r.activities),
        TransportViewOf(r.communityTransportation),
        ProjectBlocks(r.previousProjects))
  }

  /** The worked examples: a nameless activity, a zero b-score, and a recent nearby award. */
  lemma Scenarios(a: Activity, p0: PreviousProject, p5: PreviousProject)
    requires a.name == Null
    requires p0.bPoints == 0.0
    requires p5.bPoints == 5.0 && p5.yearsSinceNearbyAward == Value(2.0)
    ensures Rows([a]) == [Row(Missing, a.category, "none within 1.5 miles", a.milesAway, a.points)]
    ensures ProjectBlockOf(p0).recentAwardLine == Some([Str("Last award within a mile: within last 2 years")])
    ensures ProjectBlockOf(p0).transitHubLine == None
    ensures ProjectBlockOf(p5).yearsAgoLine == Some([Str("Last award within a mile: "), Num(Value(2.0)), Str(" years ago")])
    ensures ProjectBlockOf(p5).transitHubLine == Some([Str("Transit hub within 1 mile walk")])
  {
  }
}
